=== FILE: README.md ===
# wx-listener core, modelled in Dafny

wx-listener watches chat groups in a desktop messaging client. Each incoming
message passes a cheap local filter, is classified by a remote language model,
and when it is an important notification its fields (title, time, location,
content, action, urgency) are extracted and appended to a JSON notification
store. A set of active group listeners is kept in step with the configured
list of target groups.

This project models the sequential logic under that glue, all of it in
`app.py`, over in-memory values:

- `listeners.dfy` (module `Listeners`): the group-listener state machine.
  The state holds the active groups, the configuration, the configuration file,
  and the log of calls made to the chat client. It covers `add_group_listener`,
  `remove_group_listener` and the loop of `start_monitoring`.
- `store.dfy` (module `NotificationStore`): the notification store as a
  sequence of JSON objects. It covers the effective `save_notification`,
  `mark_notification_as_read` and `delete_notification`. Each file
  read-modify-write becomes a pure function from the old content to the new
  content and the returned flag.
- `classifier.dfy` (module `Classifier`): the two-stage gate `is_notification`.
- `extraction.dfy` (module `Extraction`): the post-processing in
  `extract_notification_info`. It has two versions. `ExtractAsWritten`
  follows the code as written; it always returns the default record (see
  Findings). `ParseReply` models lines 159-180, and `ExtractInfo` is the
  function with the faulty statement removed.
- `pipeline.dfy` (module `Pipeline`): `on_message`, composing the gate, an
  extraction and the store. `OnMessageAsWritten` uses the extraction as
  written, and `OnMessage` uses the corrected `ExtractInfo`.
- `config.dfy` (module `ConfigStore`): `load_config` with its default.
- `text.dfy`, `seqs.dfy`, `json.dfy`, `wrappers.dfy`: the Python string and
  list operations the code relies on (`in`, `strip`, `lower`, `find`,
  `rfind`, `list.remove`, slicing, `str(int)`), the JSON value type, and
  `Option`.

Parameters stand in for everything outside the program. The model's replies
are plain strings: the text the model returns, or `""` when the API call
failed. JSON decoding is an arbitrary partial function
`string -> Option<Json>`. The clock is the whole-second reading and the
formatted timestamp string. A decoded file is `None` when it is missing or
not valid JSON.

The model follows the code, including where its behaviour may be unexpected:

- Marking as read flips `is_read` on every record with the id, not on the first one.
- Removing a group drops only its first occurrence from `target_groups`.
- `extract_notification_info` as written never parses the reply. See Findings.
- Removing a group is refused while its listener is not active. This holds even
  when the group is listed, for example before monitoring has started.
  `Listeners.RemoveBeforeStartKeepsGroup` states this.

## Model

| member | source | states |
|---|---|---|
| `Seqs.IndexOf` | app.py:163 | `find`: the first index holding the element, or -1 exactly when it is absent |
| `Seqs.LastIndexOf` | app.py:164 | `rfind`: the last index holding the element, or -1 exactly when it is absent |
| `Seqs.RemoveFirst` | app.py:244-245 | `list.remove` when guarded by membership: an absent element leaves the list alone; otherwise exactly the first occurrence is cut out |
| `Seqs.RemoveFirstNoDup` | app.py:244-245 | on a duplicate-free list, removal drops the element entirely and keeps the list duplicate-free |
| `Seqs.RemoveFirstKeepsLaterCopy` | app.py:245 | only one occurrence goes: an element listed twice is still listed after removal |
| `Text.Contains` | app.py:120 | Python's `sub in s`: the empty string occurs in every string, and nothing longer than the text occurs in it |
| `Text.ContainsIffOccurs` | app.py:120 | substring search `keyword in content` holds exactly when the keyword sits at some index |
| `Text.ContainsChar` | app.py:126 | a one-character string occurs exactly when that character is in the text |
| `Text.StripCut` | app.py:126 | the cut `strip()` makes leaves only whitespace before and after the kept piece, and none at either end of it |
| `Text.TrimmedKeepsNonSpace` | app.py:126 | cutting only whitespace off both ends keeps every other character |
| `Text.Strip` | app.py:126 | `strip()` returns a contiguous piece of the text with only whitespace before and after it, and with no whitespace at either of its ends. So any other character is present before exactly when after |
| `Text.Lower` | app.py:178 | lower-casing keeps the length and lower-cases each ASCII letter in place |
| `Text.Take` | app.py:148 | `content[:200]` is the prefix of length min(length, 200) |
| `Text.NatToString` | app.py:264 | `str(int(...))`: at least one decimal digit, no leading zero |
| `Text.ParseNatToString` | app.py:264 | reading back the decimal rendering of the seconds gives the seconds |
| `ConfigStore.LoadConfig` | app.py:37-49 | a readable file is returned unchanged; an unreadable one yields the default (no groups, the five keywords, alerts on); afterwards the file holds exactly the returned configuration |
| `Listeners.NewMonitor` | app.py:32-35 | a new monitor has no active listener, has made no client call, and its in-memory configuration matches the file |
| `Listeners.AddGroupListener` | app.py:226-236 | returns true iff the group was not active. On false nothing changes. On true: the group becomes active, the client is asked to listen, and the group is appended at the end of `target_groups` (file rewritten) only if absent. The old list stays a prefix, no duplicate is introduced, and keywords and the alert flag are untouched |
| `Listeners.RemoveGroupListener` | app.py:238-248 | returns true iff the group was active. On false nothing changes, even if the group is listed. On true: the group is inactive, the client stops listening, and only the first listed occurrence is removed (file rewritten only if listed) |
| `Listeners.StartMonitoring` | app.py:257-258 | after the loop every listed group is active, the client listens to each newly active group, and the configuration and its file are unchanged |
| `Listeners.StartFresh` | app.py:250-258 | starting a freshly loaded monitor over a duplicate-free group list makes list, active set, file and client registrations agree |
| `Listeners.AddKeepsSynced` | app.py:226-236 | adding preserves the agreement between list, active set, file and client |
| `Listeners.RemoveKeepsSynced` | app.py:238-248 | removing preserves that agreement |
| `Listeners.AddTwice` | app.py:228-236 | a second add of the same group returns false and changes nothing |
| `Listeners.RemoveBeforeStartKeepsGroup` | app.py:238-248 | on a freshly constructed monitor, removing a listed group returns false and the group stays listed |
| `Classifier.IsNotification` | app.py:117-127 | the model is asked iff a keyword occurs or the text is longer than 20 characters; if not asked the answer is false; if asked the answer is whether the reply contains 是 |
| `Classifier.ShortPlainMessageRejected` | app.py:119-127 | a message of at most 20 characters without a keyword is rejected without asking the model, whatever the reply |
| `Classifier.FailedCallRejects` | app.py:109-127 | a failed model call, which yields the empty reply, never classifies a message as important |
| `Classifier.EmptyKeywordMatchesAll` | app.py:119-122 | an empty configured keyword sends every message to the model |
| `Extraction.DefaultInfo` | app.py:144-151 | the default record has exactly the six fields: unknown title, the first 200 characters as content, empty time, location and action, not urgent |
| `Extraction.CoerceUrgent` | app.py:176-178 | a string `is_urgent` becomes a boolean; any other value is left as it is |
| `Extraction.CoerceUrgentExamples` | app.py:178 | "TRUE", "Yes" and 是 coerce to true; "false", "1" and 否 coerce to false |
| `Extraction.Backfill` | app.py:171-178 | after the loop every visited key is present. A missing key takes its default, a present key keeps its value (a string `is_urgent` is coerced), and unvisited keys are untouched |
| `Extraction.ObjectBounds` | app.py:163-166 | the fallback span starts at the first `{` and ends after the last `}`. It exists exactly when some `{` precedes some `}` |
| `Extraction.DecodeReply` | app.py:158-169 | the whole reply is decoded first; only when that fails is the `{`…`}` span decoded; without a span decoding fails |
| `Extraction.ParseReply` | app.py:158-180 | succeeds iff decoding yields an object. Then all six fields are present, missing ones take their defaults, present ones keep their decoded value, a string `is_urgent` becomes true iff its lower-case form is true, 是 or yes, and a non-string one is untouched |
| `Extraction.ExtractInfo` | app.py:158-183 | the function with line 156 removed. It always returns a record with the six fields, and the default record whenever parsing fails. When the reply decodes to an object, the result holds that object's keys plus the six fields. Every decoded field other than `is_urgent` keeps its value, a missing field takes its default, a string `is_urgent` becomes true iff its lower-case form is true, 是 or yes, and a non-string one is kept |
| `Extraction.ExtractAsWritten` | app.py:153-183 | line 156 is the stub `JsonLoadOnText`, which never yields a value because `json.load` raises on a `str`. So, as written, the result equals the default record (unknown title, first 200 characters, empty time, location and action, not urgent) for every reply |
| `Extraction.AsWrittenIgnoresReply` | app.py:156 | as written, two different replies give the same result |
| `Extraction.AsWrittenDiscardsValidReply` | app.py:156-160 | a reply decoding to an object with a title: as written the unknown title comes back, while the parsing below recovers the reply's title |
| `Extraction.CompleteReplyKept` | app.py:159-180 | a reply decoding to an object with all six fields and a non-string `is_urgent` is returned unchanged |
| `Extraction.UnparseableReplyGivesDefault` | app.py:159-183 | a reply that does not decode and has no `{` before a `}` yields exactly the default record |
| `Extraction.EmbeddedObjectRecovered` | app.py:161-167 | prose without braces around a `{`…`}` block: when the whole reply fails to decode, exactly that block is decoded |
| `NotificationStore.NotificationId` | app.py:264 | the id is `ntf-` followed by decimal digits that read back as the seconds, with no leading zero |
| `NotificationStore.NotificationIdCollision` | app.py:264 | two ids are equal exactly when their seconds are equal, so notifications in the same second collide |
| `NotificationStore.NewNotification` | app.py:263-268 | the record has the data's keys plus id, timestamp and `is_read`; data keys override the base keys, and absent ones take the id, the timestamp and false |
| `NotificationStore.SaveNotification` | app.py:261-279 | the file afterwards holds the existing records (none if unreadable) unchanged and in order, followed by exactly one new record |
| `NotificationStore.MarkMatching` | app.py:288-292 | every record with the id gets `is_read = true`; all others, the length and the order are unchanged |
| `NotificationStore.MarkAsRead` | app.py:282-301 | returns true iff the file is readable, every record has an id, and some record has this id. On true the marked records are written; on false the file is unchanged |
| `NotificationStore.MarkMatchingIdempotent` | app.py:288-292 | marking twice equals marking once |
| `NotificationStore.MarkAbsentChangesNothing` | app.py:282-298 | marking an id that no record has returns false and leaves the store as it was |
| `NotificationStore.MarkKeepsIds` | app.py:288-292 | marking keeps every record's id |
| `NotificationStore.RemoveWithId` | app.py:311 | the filter keeps exactly the records without the id, drops none other, adds none, and shrinks the list iff some record had the id |
| `NotificationStore.RemoveWithIdAppend` | app.py:311 | the filter distributes over concatenation, so it preserves order |
| `NotificationStore.RemoveWithIdIdempotent` | app.py:311 | filtering twice equals filtering once |
| `NotificationStore.RemoveWithIdNoMatch` | app.py:311-317 | without a matching record the filter returns the list unchanged |
| `NotificationStore.DeleteNotification` | app.py:304-320 | returns true iff the file is readable, every record has an id, and some record has this id. On true the filtered records are written; on false the file is unchanged |
| `NotificationStore.DeleteThenListHasNoId` | app.py:304-320 | when every stored record has an id, the listed notifications never include the deleted id afterwards. A record without an id makes line 311 raise, and then nothing is deleted |
| `Pipeline.MessageRecord` | app.py:217-222 | the saved data has group, sender and raw content, overridden by any extracted field of the same name |
| `Pipeline.StoreMessage` | app.py:213-222 | storing an important message appends one record after the existing ones. Its keys are exactly the extracted keys plus group, sender, raw content, id, timestamp and `is_read`. It carries every extracted value, and the message's group, sender and raw content, the generated id, the timestamp and the unread flag wherever the extraction did not supply that key |
| `Pipeline.OnMessageAsWritten` | app.py:204-224 | as written, a message the gate rejects leaves the store untouched. An important one appends one record after the existing ones, whatever the extraction reply. Its keys are exactly the six default fields plus group, sender, raw content, id, timestamp and `is_read`. Every value is fixed: the unknown title, empty time, location and action, the truncated content, `is_urgent` false, the id `ntf-<seconds>`, the given timestamp, unread, and the message's group, sender and raw content |
| `Pipeline.DefaultRecordStored` | app.py:213-222 | the record stored for the default extraction has exactly the six default fields and the six base keys. Its values are the unknown title, empty time, location and action, the truncated content, not urgent, the generated id, the timestamp, unread, and the message's group, sender and raw content |
| `Pipeline.OnMessage` | app.py:204-224 | with the corrected extraction, a message the gate rejects leaves the store untouched. An important one appends one record after the existing ones. Its keys are exactly the extracted keys plus group, sender, raw content, id, timestamp and `is_read`. It carries every extracted value, and the message's group, sender and raw content, the generated id, the timestamp and the unread flag wherever the extraction did not supply that key |
| `Pipeline.PipelinesAgreeOnUnparseableReply` | app.py:153-183 | for a reply that neither decodes nor holds a `{`…`}` block, the pipeline as written and the corrected one store the same thing |
| `Pipeline.ReplyCanSetId` | app.py:217-222 | in the corrected pipeline, an extraction reply object with an `id` field sets the stored notification's id (as written the reply never reaches the record) |

## Left out

- HTTP routes and cross-origin headers (app.py:326-396) are thin wrappers. The 400 answer for a missing `group` is not modelled.
- `call_model_api`, `analyze_with_model` and `test_model_connection` are remote HTTP calls. The reply is an opaque string parameter, and `""` stands for a failed call.
- The connectivity self-test at the start of `start_monitoring` is left out. Usually it only prints. A successful reply with an empty `choices` list, however, makes app.py:102 raise `IndexError`, and `start_monitoring` then ends before adding any listener. `Listeners.StartMonitoring` covers only the run in which the self-test returns.
- The chat-client library (`AddListenChat`, `RemoveListenChat`, `KeepRunning`) is foreign code. Its calls are logged as `ClientCall` values, and failures inside it are not modelled.
- Files and JSON (de)serialisation are replaced by decoded values. Dictionary key order, indentation and partial writes are not modelled. Numbers are integers because no number is inspected.
- The store is modelled as a sequence of JSON objects, so it cannot hold a non-object item or be a non-array file. Such content is not modelled. Saving would still append to a list with any items, while marking and deleting would raise when indexing a non-object.
- The configuration is assumed to have its three fields. A missing `target_groups` raises `KeyError`, and `config.get('keywords', [])` is read as the stored keyword list.
- `time.time()` and `datetime.now()` are parameters: the whole seconds and the formatted timestamp.
- The background thread in `/api/start`, the blocking event loop and possible concurrent callbacks are concurrency plumbing, so they are left out.
- Printing, the prompt texts, and the dead first `save_notification` (app.py:185-202) are left out.
- The `UnboundLocalError` in the handler at app.py:182 arises only when `analyze_with_model` itself raises, and `on_message` swallows it. It is not modelled.
- `on_message`'s `str()` conversions of message attributes and its catch-all handler are left out. The model takes the strings directly.
- Pipeline.OnMessage: composes the corrected extraction (`ExtractInfo`, line 156 removed), not the extraction app.py:215 runs as written. When the reply decodes, it stores the parsed fields where the program as written stores `default_info`. `Pipeline.OnMessageAsWritten` models the program as written.
- Text.Lower: lower-cases ASCII letters only, not all Unicode letters, and always keeps the length. Python's `lower()` differs on non-ASCII letters. It also lengthens exactly one character: U+0130 lowers to two code points. The result is used only for comparison with `true`, `yes` and 是. No non-ASCII character lowers to the letters of those words, and U+0130's two-point form contains none of them. So the `is_urgent` coercion agrees with Python's.
- ConfigStore: `save_config` is the identity on the decoded configuration, since the file is modelled by its decoded content. The save-then-load round trip therefore holds by construction and is not stated as a separate property. The listener operations record the saved configuration directly.

## Findings

| source | as written | input that shows it | evidently intended | confidence | as-written member | corrected member |
|---|---|---|---|---|---|---|
| app.py:156 | `print(json.load(response))` passes the reply string to `json.load`, which expects a file object and raises; the handler then returns `default_info`, so lines 159-180 are unreachable | a reply `{"title": "讲座"}` that decodes to an object with title 讲座: the result's title is 未知通知 | line 156 removed, so that the reply is parsed (with the `{`…`}` fallback) and backfilled. Replacing it with `json.loads` would not do: that raises for any reply that is not entirely JSON, outside the inner handler | high, not executed | `Extraction.ExtractAsWritten` (`Extraction.AsWrittenDiscardsValidReply`) | `Extraction.ExtractInfo` |

=== FILE: classifier.dfy ===
/** The two-stage notification gate `is_notification` (app.py): a cheap local
    test decides whether the language model is asked at all, and the model's
    reply decides the outcome. The reply is a parameter: the text the model
    would answer for this message, or "" when the call failed (as
    `analyze_with_model` returns on any API error). */
module Classifier {
  import opened Text

  /** Whether some configured keyword occurs in the content (Python
      `any(keyword in content for keyword in keywords)`). */
  predicate HasKeyword(keywords: seq<string>, content: string) {
    exists i :: 0 <= i < |keywords| && Contains(content, keywords[i])
  }

  /** The local pre-filter: a keyword occurs, or the message is longer than 20
      characters. */
  predicate NeedsModel(keywords: seq<string>, content: string) {
    HasKeyword(keywords, content) || |content| > 20
  }

  /** The affirmative answer the classification prompt asks for. */
  const Yes := "是"

  /** The gate's outcome: whether the model was asked, and the decision. */
  datatype Verdict = Verdict(asked: bool, important: bool)

  /** `is_notification`. When the pre-filter rejects the message, the model is
      not asked and the answer is false whatever the model would have said.
      Otherwise the answer is whether the reply, after `strip()`, contains
      "是"; since stripping only removes whitespace, that is exactly whether the
      raw reply contains it. */
  function IsNotification(keywords: seq<string>, content: string, reply: string): (r: Verdict)
    ensures r.asked <==> NeedsModel(keywords, content)
    ensures !r.asked ==> !r.important
    ensures r.asked ==> (r.important <==> '是' in reply)
  {
    if NeedsModel(keywords, content) then
      ContainsChar(Strip(reply), '是');
      Verdict(true, Contains(Strip(reply), Yes))
    else
      Verdict(false, false)
  }

  /** Short messages without a keyword are never classified, whatever the model
      would answer. */
  lemma ShortPlainMessageRejected(keywords: seq<string>, content: string, reply: string)
    requires |content| <= 20
    requires forall i :: 0 <= i < |keywords| ==> !Contains(content, keywords[i])
    ensures IsNotification(keywords, content, reply) == Verdict(false, false)
  {
  }

  /** A failed model call (empty reply) never classifies a message as important. */
  lemma FailedCallRejects(keywords: seq<string>, content: string)
    ensures !IsNotification(keywords, content, "").important
  {
  }

  /** Python's `"" in s` holds, so an empty keyword in the configuration sends
      every message to the model. */
  lemma EmptyKeywordMatchesAll(keywords: seq<string>, content: string)
    requires "" in keywords
    ensures NeedsModel(keywords, content)
  {
  }
}

=== FILE: config.dfy ===
/** The configuration store: the monitored groups, the trigger keywords and the
    alert flag, kept in one JSON file (app.py, `load_config` / `save_config`). */
module ConfigStore {
  import opened Wrappers

  datatype Config = Config(targetGroups: seq<string>, keywords: seq<string>, enableAlert: bool)

  /** The keywords written into a fresh configuration. */
  const DefaultKeywords: seq<string> := ["通知", "重要", "紧急", "提醒", "必看"]

  /** What `load_config` materialises when the file is missing or malformed. */
  const DefaultConfig := Config([], DefaultKeywords, true)

  /** The result of loading: the configuration in memory and the file's content
      afterwards. */
  datatype Loaded = Loaded(config: Config, file: Config)

  /** `load_config`: `stored` is the decoded file, `None` when it is missing or
      not valid JSON. A readable file is returned as it is and left alone; an
      unreadable one is replaced by the default, which is persisted and returned.
      Either way the file ends up holding exactly the configuration in memory. */
  function LoadConfig(stored: Option<Config>): (r: Loaded)
    ensures r.file == r.config
    ensures stored.Some? ==> r.config == stored.value
    ensures stored.None? ==>
              && r.config.targetGroups == []
              && r.config.keywords == ["通知", "重要", "紧急", "提醒", "必看"]
              && r.config.enableAlert
  {
    match stored
    case Some(c) => Loaded(c, c)
    case None => Loaded(DefaultConfig, DefaultConfig)
  }
}

=== FILE: extraction.dfy ===
/** Post-processing of the extraction reply in `extract_notification_info`
    (app.py). The language-model call is outside the model: `reply` is the text
    it returned. JSON decoding (`json.loads`) is the parameter `decode`, an
    arbitrary partial function that yields `None` where Python raises
    `JSONDecodeError`.

    Two versions are modelled. `ExtractAsWritten` follows the function line by
    line, including the debugging statement that hands the reply string to
    `json.load`; that call always raises, the handler catches it, and the
    function returns the default record for every reply. `ExtractInfo` is the
    function with that statement (line 156) removed: `ParseReply` models the
    parsing and backfilling that follow it, and the default record is the
    fallback when parsing fails. The message pipeline is modelled with each. */
module Extraction {
  import opened Wrappers
  import opened Seqs
  import opened Text
  import opened JsonValue

  /** JSON decoding of a text: `None` when the text is not valid JSON. */
  type Decoder = string -> Option<Json>

  const TitleKey := "title"
  const TimeKey := "time"
  const LocationKey := "location"
  const ContentKey := "content"
  const ActionKey := "action"
  const UrgentKey := "is_urgent"

  /** The six fields of an extracted record, in the order the backfill visits them. */
  const FieldOrder: seq<string> := [TitleKey, TimeKey, LocationKey, ContentKey, ActionKey, UrgentKey]

  /** Title of a record that could not be extracted. */
  const UnknownTitle := "未知通知"

  /** How much of the message the default record keeps as its content. */
  const DefaultContentLength := 200

  /** `default_info`: unknown title, the first 200 characters of the message as
      content, empty time, location and action, not urgent. */
  function DefaultInfo(content: string): (d: Record)
    ensures d.Keys == Elems(FieldOrder)
    ensures d[TitleKey] == JStr(UnknownTitle)
    ensures d[ContentKey].JStr? && IsPrefix(d[ContentKey].s, content)
    ensures |d[ContentKey].s| == if |content| <= 200 then |content| else 200
    ensures d[TimeKey] == JStr("") && d[LocationKey] == JStr("") && d[ActionKey] == JStr("")
    ensures d[UrgentKey] == JBool(false)
  {
    map[TitleKey := JStr(UnknownTitle),
        TimeKey := JStr(""),
        LocationKey := JStr(""),
        ContentKey := JStr(Take(content, DefaultContentLength)),
        ActionKey := JStr(""),
        UrgentKey := JBool(false)]
  }

  /** The strings an `is_urgent` text counts as true for, after lower-casing. */
  const TruthyWords: set<string> := {"true", "是", "yes"}

  /** The `is_urgent` coercion: a string becomes the boolean "its lower-case form
      is one of true / 是 / yes"; any other value is left untouched. The result
      is never a string. */
  function CoerceUrgent(v: Json): (r: Json)
    ensures !r.JStr?
    ensures !v.JStr? ==> r == v
    ensures v.JStr? ==> r.JBool?
  {
    if v.JStr? then JBool(Lower(v.s) in TruthyWords) else v
  }

  /** Coercion examples: case does not matter for the ASCII words, anything
      else (including "1" and "否") is false. */
  lemma CoerceUrgentExamples()
    ensures CoerceUrgent(JStr("TRUE")) == JBool(true)
    ensures CoerceUrgent(JStr("Yes")) == JBool(true)
    ensures CoerceUrgent(JStr("是")) == JBool(true)
    ensures CoerceUrgent(JStr("false")) == JBool(false)
    ensures CoerceUrgent(JStr("1")) == JBool(false)
    ensures CoerceUrgent(JStr("否")) == JBool(false)
  {
    assert Lower("TRUE") == "true";
    assert Lower("Yes") == "yes";
    assert Lower("是") == "是";
    assert Lower("false") == "false";
    assert Lower("1") == "1";
    assert Lower("否") == "否";
  }

  /** The value a field takes once visited by the backfill loop: `is_urgent`
      is coerced, every other field is kept. */
  function Settle(k: string, v: Json): Json {
    if k == UrgentKey then CoerceUrgent(v) else v
  }

  /** The backfill loop over `keys`: a missing key takes its default, and when
      the key is `is_urgent` a string value is coerced. The result has every key
      of `info` and of `keys`; a key outside `keys` keeps its value; a visited key
      holds its settled value, taken from `info` when present and from the
      defaults otherwise. Visiting a key twice is harmless. */
  function Backfill(info: Record, defaults: Record, keys: seq<string>): (r: Record)
    requires forall k :: k in keys ==> k in defaults
    ensures r.Keys == info.Keys + Elems(keys)
    ensures forall k :: k in info && k !in keys ==> r[k] == info[k]
    ensures forall k :: k in keys ==> r[k] == Settle(k, if k in info then info[k] else defaults[k])
    decreases |keys|
  {
    if keys == [] then info
    else
      var k := keys[0];
      var filled := if k !in info then info[k := defaults[k]] else info;
      var settled := if k == UrgentKey && filled[k].JStr? then filled[k := CoerceUrgent(filled[k])] else filled;
      assert forall j :: j in keys <==> j == k || j in keys[1..];
      Backfill(settled, defaults, keys[1..])
  }

  /** The span of `response[response.find('{'):response.rfind('}') + 1]`, when the
      guard `start >= 0 and end > start` admits it: it starts at the first `{`,
      ends just after the last `}`, and exists exactly when some `{` comes
      before some `}`. */
  function ObjectBounds(reply: string): (r: Option<(nat, nat)>)
    ensures r.Some? ==>
              && r.value.0 < r.value.1 <= |reply|
              && reply[r.value.0] == '{' && reply[r.value.1 - 1] == '}'
              && (forall i :: 0 <= i < r.value.0 ==> reply[i] != '{')
              && (forall i :: r.value.1 <= i < |reply| ==> reply[i] != '}')
    ensures r.None? <==> forall i, j :: 0 <= i < j < |reply| && reply[i] == '{' ==> reply[j] != '}'
  {
    var start := IndexOf(reply, '{');
    var end := LastIndexOf(reply, '}') + 1;
    if start >= 0 && end > start then Some((start, end)) else None
  }

  /** The two parsing attempts: the whole reply first; only if that fails, the
      span from the first `{` to the last `}`. */
  function DecodeReply(reply: string, decode: Decoder): (r: Option<Json>)
    ensures decode(reply).Some? ==> r == decode(reply)
    ensures decode(reply).None? && ObjectBounds(reply).None? ==> r.None?
    ensures decode(reply).None? && ObjectBounds(reply).Some? ==>
              r == decode(reply[ObjectBounds(reply).value.0..ObjectBounds(reply).value.1])
  {
    match decode(reply)
    case Some(v) => Some(v)
    case None =>
      match ObjectBounds(reply)
      case Some((start, end)) => decode(reply[start..end])
      case None => None
  }

  /** Lines 159-180 of `extract_notification_info`: decode the reply, then
      backfill and coerce. `None` is every way these lines raise: both decoding
      attempts fail, no `{`…`}` span exists, or the decoded value is not an
      object (indexing a non-`dict` by a key string raises `TypeError`).
      On success all six fields are present; a field the reply lacked holds its
      default; a field it had keeps its decoded value, except that a string
      `is_urgent` becomes a boolean; extra fields of the reply are kept. */
  function ParseReply(content: string, reply: string, decode: Decoder): (r: Option<Record>)
    ensures r.Some? <==> DecodeReply(reply, decode).Some? && DecodeReply(reply, decode).value.JObj?
    ensures r.Some? ==>
              var parsed := DecodeReply(reply, decode).value.fields;
              var defaults := DefaultInfo(content);
              && r.value.Keys == parsed.Keys + Elems(FieldOrder)
              && (forall k :: k in FieldOrder && k !in parsed ==> r.value[k] == defaults[k])
              && (forall k :: k in parsed && k != UrgentKey ==> r.value[k] == parsed[k])
              && (UrgentKey in parsed && parsed[UrgentKey].JStr? ==>
                    r.value[UrgentKey] == JBool(Lower(parsed[UrgentKey].s) in TruthyWords))
              && (UrgentKey in parsed && !parsed[UrgentKey].JStr? ==>
                    r.value[UrgentKey] == parsed[UrgentKey])
  {
    match DecodeReply(reply, decode)
    case Some(JObj(fields)) => Some(Backfill(fields, DefaultInfo(content), FieldOrder))
    case _ => None
  }

  /** `extract_notification_info` with the faulty debugging statement (line 156)
      removed: the parsed record, or the default record whenever parsing raises.
      The result always has the six fields. When the reply decodes to an object,
      the result holds that object's keys plus the six fields, every decoded
      field other than `is_urgent` keeps its value, a missing field takes its
      default, and a string `is_urgent` is coerced to a boolean. */
  function ExtractInfo(content: string, reply: string, decode: Decoder): (r: Record)
    ensures forall k :: k in FieldOrder ==> k in r
    ensures ParseReply(content, reply, decode).None? ==> r == DefaultInfo(content)
    ensures var decoded := DecodeReply(reply, decode);
            decoded.Some? && decoded.value.JObj? ==>
              var parsed := decoded.value.fields;
              && r.Keys == parsed.Keys + Elems(FieldOrder)
              && (forall k :: k in parsed && k != UrgentKey ==> r[k] == parsed[k])
              && (forall k :: k in FieldOrder && k !in parsed ==> r[k] == DefaultInfo(content)[k])
              && (UrgentKey in parsed && parsed[UrgentKey].JStr? ==>
                    r[UrgentKey] == JBool(Lower(parsed[UrgentKey].s) in TruthyWords))
              && (UrgentKey in parsed && !parsed[UrgentKey].JStr? ==> r[UrgentKey] == parsed[UrgentKey])
  {
    match ParseReply(content, reply, decode)
    case Some(info) => info
    case None => DefaultInfo(content)
  }

  /** `json.load` reads from a file object; handed the reply `str` it raises
      (a `str` has no `read` method) before anything is decoded. */
  function JsonLoadOnText(text: string): Option<Json> {
    None
  }

  /** `extract_notification_info` as written: the debugging `print(json.load(response))`
      raises for every reply, the handler returns `default_info`, and the
      parsing below it is never reached. */
  function ExtractAsWritten(content: string, reply: string, decode: Decoder): (r: Record)
    ensures r == DefaultInfo(content)
    ensures r.Keys == Elems(FieldOrder)
    ensures r[TitleKey] == JStr(UnknownTitle)
    ensures r[ContentKey] == JStr(Take(content, 200))
    ensures r[UrgentKey] == JBool(false)
  {
    match JsonLoadOnText(reply)
    case None => DefaultInfo(content)
    case Some(_) => ExtractInfo(content, reply, decode)
  }

  /** As written, the reply has no influence on the result. */
  lemma AsWrittenIgnoresReply(content: string, reply1: string, decode1: Decoder, reply2: string, decode2: Decoder)
    ensures ExtractAsWritten(content, reply1, decode1) == ExtractAsWritten(content, reply2, decode2)
  {
  }

  /** A concrete reply that decodes to a complete object: the function as
      written still returns the unknown title, while the parsing it skips
      would have recovered the reply's title. */
  lemma AsWrittenDiscardsValidReply()
    ensures var reply := "{\"title\": \"讲座\"}";
            var decode: Decoder := (s: string) => if s == reply then Some(JObj(map[TitleKey := JStr("讲座")])) else None;
            && ExtractAsWritten("讲座通知", reply, decode)[TitleKey] == JStr(UnknownTitle)
            && ExtractInfo("讲座通知", reply, decode)[TitleKey] == JStr("讲座")
  {
  }

  /** A reply that decodes to an object with all six fields and a non-string
      `is_urgent` is returned unchanged. */
  lemma CompleteReplyKept(content: string, reply: string, decode: Decoder, fields: Record)
    requires decode(reply) == Some(JObj(fields))
    requires forall k :: k in FieldOrder ==> k in fields
    requires !fields[UrgentKey].JStr?
    ensures ExtractInfo(content, reply, decode) == fields
  {
  }

  /** A reply that neither decodes nor holds a `{` before a `}` yields exactly
      the default record. */
  lemma UnparseableReplyGivesDefault(content: string, reply: string, decode: Decoder)
    requires decode(reply).None?
    requires forall i, j :: 0 <= i < j < |reply| && reply[i] == '{' ==> reply[j] != '}'
    ensures ExtractInfo(content, reply, decode) == DefaultInfo(content)
  {
  }

  /** Prose around a `{`…`}` block does not prevent recovering it: when the whole
      reply does not decode, the block (from the first `{` to the last `}`) is
      what gets decoded. */
  lemma {:induction false} EmbeddedObjectRecovered(reply: string, decode: Decoder, before: string, body: string, after: string)
    requires reply == before + body + after
    requires '{' !in before && '}' !in after
    requires |body| >= 2 && body[0] == '{' && body[|body| - 1] == '}'
    requires decode(reply).None?
    ensures DecodeReply(reply, decode) == decode(body)
  {
    var b := ObjectBounds(reply);
    assert reply[|before|] == '{' && reply[|before| + |body| - 1] == '}';
    assert b.Some?;
    var (start, end) := b.value;
    assert forall i :: 0 <= i < |before| ==> reply[i] == before[i];
    assert forall i :: |before| + |body| <= i < |reply| ==> reply[i] == after[i - |before| - |body|];
    assert start == |before|;
    assert end == |before| + |body|;
    assert reply[start..end] == body;
  }
}

=== FILE: json.dfy ===
/** Parsed JSON values, the in-memory form of everything the program reads from
    its two files and from the model's replies. */
module JsonValue {

  /** A decoded JSON value. Numbers are kept as integers: no number is ever
      inspected by the modelled code. */
  datatype Json =
    | JNull
    | JBool(b: bool)
    | JNum(n: int)
    | JStr(s: string)
    | JArr(items: seq<Json>)
    | JObj(fields: map<string, Json>)

  /** A JSON object, the shape of a notification and of an extracted record
      (Python `dict` with string keys; key order is not modelled). */
  type Record = map<string, Json>
}

=== FILE: listeners.dfy ===
/** The group-listener state machine of `WeChatMonitor`: the set of groups with
    an active listener, the configuration (whose `targetGroups` list the
    operations keep in step), the configuration file, and the calls made to
    the chat client (app.py, `add_group_listener`, `remove_group_listener`,
    and the loop of `start_monitoring`). */
module Listeners {
  import opened Wrappers
  import opened Seqs
  import opened ConfigStore

  /** A call into the chat client: `AddListenChat` or `RemoveListenChat`. */
  datatype ClientCall = Listen(group: string) | Unlisten(group: string)

  /** The monitor's state. `active` is `active_listeners`, `config` the
      configuration in memory, `saved` the configuration file, `calls` the
      chat-client calls made so far, oldest first. */
  datatype Monitor = Monitor(active: set<string>, config: Config, saved: Config, calls: seq<ClientCall>)

  /** The state after an operation and the boolean it returns. */
  datatype Step = Step(monitor: Monitor, success: bool)

  /** The groups the chat client is listening to after the calls in `calls`:
      those whose latest call registered them. */
  function Registered(calls: seq<ClientCall>): set<string> {
    if calls == [] then {}
    else
      var before := Registered(calls[..|calls| - 1]);
      match calls[|calls| - 1]
      case Listen(g) => before + {g}
      case Unlisten(g) => before - {g}
  }

  /** The monitor as constructed: configuration loaded, no listener, no call. */
  function NewMonitor(stored: Option<Config>): (m: Monitor)
    ensures m.active == {} && m.calls == []
    ensures m.saved == m.config
    ensures stored.Some? ==> m.config == stored.value
  {
    var loaded := LoadConfig(stored);
    Monitor({}, loaded.config, loaded.file, [])
  }

  /** `add_group_listener`. A group already listened to is refused and nothing
      changes. Otherwise the client is asked to listen, the group becomes
      active, and it is appended to `targetGroups` (and the file rewritten)
      only if it was not listed yet, so the list never gains a duplicate. */
  function AddGroupListener(m: Monitor, g: string): (r: Step)
    ensures r.success <==> g !in m.active
    ensures !r.success ==> r.monitor == m
    ensures r.success ==>
              && r.monitor.active == m.active + {g}
              && r.monitor.calls == m.calls + [Listen(g)]
              && Registered(r.monitor.calls) == Registered(m.calls) + {g}
              && Elems(r.monitor.config.targetGroups) == Elems(m.config.targetGroups) + {g}
              && |m.config.targetGroups| <= |r.monitor.config.targetGroups| <= |m.config.targetGroups| + 1
              && r.monitor.config.targetGroups[..|m.config.targetGroups|] == m.config.targetGroups
              && (g in m.config.targetGroups ==> r.monitor.config == m.config && r.monitor.saved == m.saved)
              && (g !in m.config.targetGroups ==> r.monitor.saved == r.monitor.config)
    ensures r.monitor.config.keywords == m.config.keywords
    ensures r.monitor.config.enableAlert == m.config.enableAlert
    ensures NoDup(m.config.targetGroups) ==> NoDup(r.monitor.config.targetGroups)
  {
    if g in m.active then Step(m, false)
    else
      var listening := m.(active := m.active + {g}, calls := m.calls + [Listen(g)]);
      assert listening.calls[..|listening.calls| - 1] == m.calls;
      if g !in m.config.targetGroups then
        var targets := m.config.targetGroups + [g];
        assert NoDup(m.config.targetGroups) ==> NoDup(targets) by {
          if NoDup(m.config.targetGroups) { AppendFreshNoDup(m.config.targetGroups, g); }
        }
        var c := m.config.(targetGroups := targets);
        Step(listening.(config := c, saved := c), true)
      else
        Step(listening, true)
  }

  /** `remove_group_listener`. It succeeds exactly when the group was active;
      then the client stops listening, the group is no longer active, and the
      FIRST occurrence of the group is dropped from `targetGroups` (`list.remove`),
      the file being rewritten only if the group was listed. A group that was not
      active is refused and nothing changes, even when it is listed. */
  function RemoveGroupListener(m: Monitor, g: string): (r: Step)
    ensures r.success <==> g in m.active
    ensures !r.success ==> r.monitor == m
    ensures r.success ==>
              && r.monitor.active == m.active - {g}
              && g !in r.monitor.active
              && r.monitor.calls == m.calls + [Unlisten(g)]
              && Registered(r.monitor.calls) == Registered(m.calls) - {g}
              && r.monitor.config.targetGroups == RemoveFirst(m.config.targetGroups, g)
              && (g !in m.config.targetGroups ==> r.monitor.config == m.config && r.monitor.saved == m.saved)
              && (g in m.config.targetGroups ==>
                    && r.monitor.saved == r.monitor.config
                    && |r.monitor.config.targetGroups| == |m.config.targetGroups| - 1)
    ensures r.monitor.config.keywords == m.config.keywords
    ensures r.monitor.config.enableAlert == m.config.enableAlert
  {
    if g !in m.active then Step(m, false)
    else
      var released := m.(active := m.active - {g}, calls := m.calls + [Unlisten(g)]);
      assert released.calls[..|released.calls| - 1] == m.calls;
      if g in m.config.targetGroups then
        var c := m.config.(targetGroups := RemoveFirst(m.config.targetGroups, g));
        Step(released.(config := c, saved := c), true)
      else
        Step(released, true)
  }

  /** The loop of `start_monitoring`: a listener is added for every group listed
      in the configuration. The loop iterates over the live list, but no call
      inside it appends (each group is already listed), so the configuration and
      its file are left exactly as they were. Afterwards every listed group is
      active and the client listens to every newly active group. */
  method StartMonitoring(m: Monitor) returns (r: Monitor)
    ensures r.config == m.config && r.saved == m.saved
    ensures r.active == m.active + Elems(m.config.targetGroups)
    ensures Registered(r.calls) == Registered(m.calls) + (r.active - m.active)
  {
    var targets := m.config.targetGroups;
    r := m;
    var i := 0;
    while i < |targets|
      invariant 0 <= i <= |targets|
      invariant r.config == m.config && r.saved == m.saved
      invariant r.active == m.active + Elems(targets[..i])
      invariant Registered(r.calls) == Registered(m.calls) + (r.active - m.active)
    {
      var step := AddGroupListener(r, targets[i]);
      assert targets[..i + 1] == targets[..i] + [targets[i]];
      r := step.monitor;
      i := i + 1;
    }
    assert targets[..i] == targets;
  }

  /** The intended agreement between the three views of the listened groups:
      `targetGroups` has no duplicate and lists exactly the active groups, the
      file matches memory, and the client listens to exactly the active groups. */
  predicate Synced(m: Monitor) {
    && NoDup(m.config.targetGroups)
    && m.active == Elems(m.config.targetGroups)
    && m.saved == m.config
    && Registered(m.calls) == m.active
  }

  /** Starting a freshly constructed monitor over a duplicate-free list of groups
      brings all three views into agreement. */
  method StartFresh(stored: Option<Config>) returns (r: Monitor)
    requires stored.Some? ==> NoDup(stored.value.targetGroups)
    ensures Synced(r)
    ensures r.config == NewMonitor(stored).config
  {
    r := StartMonitoring(NewMonitor(stored));
  }

  /** Adding keeps the views in agreement. */
  lemma AddKeepsSynced(m: Monitor, g: string)
    requires Synced(m)
    ensures Synced(AddGroupListener(m, g).monitor)
  {
  }

  /** Removing keeps the views in agreement: on a duplicate-free list, dropping
      the first occurrence drops the group entirely. */
  lemma RemoveKeepsSynced(m: Monitor, g: string)
    requires Synced(m)
    ensures Synced(RemoveGroupListener(m, g).monitor)
  {
    RemoveFirstNoDup(m.config.targetGroups, g);
  }

  /** Adding twice is idempotent: the second call returns false and changes
      nothing. */
  lemma AddTwice(m: Monitor, g: string)
    ensures var once := AddGroupListener(m, g).monitor;
            AddGroupListener(once, g) == Step(once, false)
  {
  }

  /** Before monitoring starts no group is active, so removing a listed group is
      refused and the group stays listed: a listed group can only be removed
      from the configuration once its listener exists. */
  lemma RemoveBeforeStartKeepsGroup(c: Config, g: string)
    requires g in c.targetGroups
    ensures var r := RemoveGroupListener(NewMonitor(Some(c)), g);
            !r.success && g in r.monitor.config.targetGroups
  {
  }
}

=== FILE: pipeline.dfy ===
/** The message handler `on_message` (app.py): classify an incoming message and,
    when it is an important notification, extract its fields and append a
    record to the store. The two model replies, the decoder and the clock enter
    as parameters. `OnMessageAsWritten` runs the extraction as written, which
    always yields the default record; `OnMessage` runs `ExtractInfo`, the
    extraction with its faulty debugging statement removed. */
module Pipeline {
  import opened Wrappers
  import opened JsonValue
  import opened Classifier
  import opened Extraction
  import opened NotificationStore
  import opened Seqs
  import Text

  const GroupKey := "group"
  const SenderKey := "sender"
  const RawContentKey := "raw_content"

  /** The record handed to `save_notification`: group, sender and raw content,
      with the extracted fields spread over them. */
  function MessageRecord(chat: string, sender: string, content: string, info: Record): (d: Record)
    ensures d.Keys == info.Keys + {GroupKey, SenderKey, RawContentKey}
    ensures forall k :: k in info ==> d[k] == info[k]
    ensures RawContentKey !in info ==> d[RawContentKey] == JStr(content)
    ensures GroupKey !in info ==> d[GroupKey] == JStr(chat)
    ensures SenderKey !in info ==> d[SenderKey] == JStr(sender)
  {
    map[GroupKey := JStr(chat), SenderKey := JStr(sender), RawContentKey := JStr(content)] + info
  }

  /** The store after saving the record of an important message: one
      notification appended after the existing ones, carrying the extracted
      fields, and the group, sender, raw content, id and unread flag unless the
      extracted record supplies those keys itself. */
  function StoreMessage(file: StoreFile, chat: string, sender: string, content: string, info: Record,
                        seconds: nat, timestamp: string): (r: seq<Record>)
    ensures |r| == |Existing(file)| + 1
    ensures r[..|Existing(file)|] == Existing(file)
    ensures var n := r[|r| - 1];
            && n.Keys == info.Keys + {GroupKey, SenderKey, RawContentKey, IdKey, TimestampKey, ReadKey}
            && (forall k :: k in info ==> n[k] == info[k])
            && (RawContentKey !in info ==> n[RawContentKey] == JStr(content))
            && (GroupKey !in info ==> n[GroupKey] == JStr(chat))
            && (SenderKey !in info ==> n[SenderKey] == JStr(sender))
            && (IdKey !in info ==> n[IdKey] == JStr(NotificationId(seconds)))
            && (TimestampKey !in info ==> n[TimestampKey] == JStr(timestamp))
            && (ReadKey !in info ==> n[ReadKey] == JBool(false))
  {
    var data := MessageRecord(chat, sender, content, info);
    // The first characters tell the message keys from the store's own keys.
    assert GroupKey[0] == 'g' && SenderKey[0] == 's' && RawContentKey[0] == 'r';
    assert IdKey[0] == 'i' && TimestampKey[0] == 't' && ReadKey[0] == 'i' && ReadKey[1] == 's';
    SaveNotification(file, data, seconds, timestamp)
  }

  /** `on_message` over the corrected extraction. A message the gate rejects
      leaves the store untouched. An important one appends exactly one record
      after the existing ones; that record has the six extracted fields, every
      value the extraction produced, and the group, sender, raw content, id,
      timestamp and unread flag wherever the extraction left those keys out. */
  function OnMessage(file: StoreFile, keywords: seq<string>, chat: string, sender: string, content: string,
                     classifyReply: string, extractReply: string, decode: Decoder,
                     seconds: nat, timestamp: string): (r: StoreFile)
    ensures !IsNotification(keywords, content, classifyReply).important ==> r == file
    ensures IsNotification(keywords, content, classifyReply).important ==>
              && r.Some?
              && |r.value| == |Existing(file)| + 1
              && r.value[..|Existing(file)|] == Existing(file)
              && (forall k :: k in FieldOrder ==> k in r.value[|r.value| - 1])
              && var n := r.value[|r.value| - 1];
                 var info := ExtractInfo(content, extractReply, decode);
                 && n.Keys == info.Keys + {GroupKey, SenderKey, RawContentKey, IdKey, TimestampKey, ReadKey}
                 && (forall k :: k in info ==> n[k] == info[k])
                 && (GroupKey !in info ==> n[GroupKey] == JStr(chat))
                 && (SenderKey !in info ==> n[SenderKey] == JStr(sender))
                 && (RawContentKey !in info ==> n[RawContentKey] == JStr(content))
                 && (IdKey !in info ==> n[IdKey] == JStr(NotificationId(seconds)))
                 && (TimestampKey !in info ==> n[TimestampKey] == JStr(timestamp))
                 && (ReadKey !in info ==> n[ReadKey] == JBool(false))
  {
    if IsNotification(keywords, content, classifyReply).important then
      var info := ExtractInfo(content, extractReply, decode);
      Some(StoreMessage(file, chat, sender, content, info, seconds, timestamp))
    else
      file
  }

  /** In the corrected pipeline the spreads let the model's reply overwrite the
      record's own keys: a reply object with an `id` field sets the stored
      notification's id. */
  lemma ReplyCanSetId(file: StoreFile, keywords: seq<string>, chat: string, sender: string, content: string,
                      classifyReply: string, extractReply: string, decode: Decoder,
                      seconds: nat, timestamp: string, fields: Record)
    requires IsNotification(keywords, content, classifyReply).important
    requires decode(extractReply) == Some(JObj(fields))
    requires IdKey in fields
    ensures var r := OnMessage(file, keywords, chat, sender, content, classifyReply, extractReply, decode, seconds, timestamp);
            r.Some? && |r.value| > 0 && r.value[|r.value| - 1][IdKey] == fields[IdKey]
  {
    assert IdKey != UrgentKey;
  }

  /** `on_message` as written: extraction always yields the default record, so
      an important message is stored with exactly the default fields (unknown
      title, empty time, location and action, the first 200 characters as
      content, `is_urgent` false), the id `ntf-<seconds>`, the timestamp, the
      unread flag, and the group, sender and raw content of the message,
      whatever the extraction reply says. */
  function OnMessageAsWritten(file: StoreFile, keywords: seq<string>, chat: string, sender: string, content: string,
                              classifyReply: string, extractReply: string, decode: Decoder,
                              seconds: nat, timestamp: string): (r: StoreFile)
    ensures !IsNotification(keywords, content, classifyReply).important ==> r == file
    ensures IsNotification(keywords, content, classifyReply).important ==>
              && r.Some?
              && |r.value| == |Existing(file)| + 1
              && r.value[..|Existing(file)|] == Existing(file)
              && var n := r.value[|r.value| - 1];
                 && n.Keys == Elems(FieldOrder) + {GroupKey, SenderKey, RawContentKey, IdKey, TimestampKey, ReadKey}
                 && n[TitleKey] == JStr(UnknownTitle)
                 && n[TimeKey] == JStr("") && n[LocationKey] == JStr("") && n[ActionKey] == JStr("")
                 && n[ContentKey] == JStr(Text.Take(content, 200))
                 && n[UrgentKey] == JBool(false)
                 && n[IdKey] == JStr(NotificationId(seconds))
                 && n[TimestampKey] == JStr(timestamp)
                 && n[ReadKey] == JBool(false)
                 && n[GroupKey] == JStr(chat)
                 && n[SenderKey] == JStr(sender)
                 && n[RawContentKey] == JStr(content)
  {
    if IsNotification(keywords, content, classifyReply).important then
      var info := ExtractAsWritten(content, extractReply, decode);
      var stored := StoreMessage(file, chat, sender, content, info, seconds, timestamp);
      DefaultRecordStored(file, chat, sender, content, seconds, timestamp);
      Some(stored)
    else
      file
  }

  /** The record stored for the default extraction: exactly the six default
      fields, and every base key of the message and the store with its value. */
  lemma DefaultRecordStored(file: StoreFile, chat: string, sender: string, content: string,
                            seconds: nat, timestamp: string)
    ensures var stored := StoreMessage(file, chat, sender, content, DefaultInfo(content), seconds, timestamp);
            var n := stored[|stored| - 1];
            && n.Keys == Elems(FieldOrder) + {GroupKey, SenderKey, RawContentKey, IdKey, TimestampKey, ReadKey}
            && n[TitleKey] == JStr(UnknownTitle)
            && n[TimeKey] == JStr("") && n[LocationKey] == JStr("") && n[ActionKey] == JStr("")
            && n[ContentKey] == JStr(Text.Take(content, 200))
            && n[UrgentKey] == JBool(false)
            && n[IdKey] == JStr(NotificationId(seconds))
            && n[TimestampKey] == JStr(timestamp)
            && n[ReadKey] == JBool(false)
            && n[GroupKey] == JStr(chat)
            && n[SenderKey] == JStr(sender)
            && n[RawContentKey] == JStr(content)
  {
    var info := DefaultInfo(content);
    // The first characters make the key strings provably distinct.
    assert GroupKey[0] == 'g' && SenderKey[0] == 's' && RawContentKey[0] == 'r';
    assert IdKey[0] == 'i' && IdKey[1] == 'd' && ReadKey[1] == 's' && ReadKey[3] == 'r';
    assert TitleKey[0] == 't' && TimeKey[0] == 't' && LocationKey[0] == 'l';
    assert ContentKey[0] == 'c' && ActionKey[0] == 'a' && UrgentKey[0] == 'i' && UrgentKey[3] == 'u';
    assert TimestampKey[1] == 'i' && TimestampKey[2] == 'm';
    assert GroupKey !in info && SenderKey !in info && RawContentKey !in info;
    assert IdKey !in info && TimestampKey !in info && ReadKey !in info;
  }

  /** The two pipelines differ only in the extraction: with a reply that does
      not decode and holds no `{`…`}` block, they store the same thing. */
  lemma PipelinesAgreeOnUnparseableReply(file: StoreFile, keywords: seq<string>, chat: string, sender: string,
                                         content: string, classifyReply: string, extractReply: string,
                                         decode: Decoder, seconds: nat, timestamp: string)
    requires decode(extractReply).None?
    requires forall i, j :: 0 <= i < j < |extractReply| && extractReply[i] == '{' ==> extractReply[j] != '}'
    ensures OnMessage(file, keywords, chat, sender, content, classifyReply, extractReply, decode, seconds, timestamp)
         == OnMessageAsWritten(file, keywords, chat, sender, content, classifyReply, extractReply, decode, seconds, timestamp)
  {
    UnparseableReplyGivesDefault(content, extractReply, decode);
  }
}

=== FILE: seqs.dfy ===
/** Generic sequence helpers with Python list/str semantics: `find`, `rfind`,
    `list.remove` and membership. */
module Seqs {

  /** The set of elements of a sequence. */
  function Elems<T>(s: seq<T>): set<T> {
    set x | x in s
  }

  /** No element occurs twice. */
  predicate NoDup<T(==)>(s: seq<T>) {
    forall i, j :: 0 <= i < j < |s| ==> s[i] != s[j]
  }

  /** Python's `s.find(x)` / `s.index(x)` without the exception: the first index
      holding `x`, or -1 when there is none. */
  function IndexOf<T(==)>(s: seq<T>, x: T): (r: int)
    ensures -1 <= r < |s|
    ensures r >= 0 ==> s[r] == x && forall i :: 0 <= i < r ==> s[i] != x
    ensures r == -1 <==> x !in s
  {
    if |s| == 0 then -1
    else if s[0] == x then 0
    else
      var k := IndexOf(s[1..], x);
      if k < 0 then -1 else k + 1
  }

  /** Python's `s.rfind(x)`: the last index holding `x`, or -1 when there is none. */
  function LastIndexOf<T(==)>(s: seq<T>, x: T): (r: int)
    ensures -1 <= r < |s|
    ensures r >= 0 ==> s[r] == x && forall i :: r < i < |s| ==> s[i] != x
    ensures r == -1 <==> x !in s
  {
    if |s| == 0 then -1
    else if s[|s| - 1] == x then |s| - 1
    else LastIndexOf(s[..|s| - 1], x)
  }

  /** Python's `list.remove(x)` when `x` may be absent: drops the FIRST occurrence
      only, and leaves the list alone when there is none. */
  function RemoveFirst<T(==)>(s: seq<T>, x: T): (r: seq<T>)
    ensures x !in s ==> r == s
    ensures x in s ==> r == s[..IndexOf(s, x)] + s[IndexOf(s, x) + 1..]
  {
    if |s| == 0 then []
    else if s[0] == x then
      assert s == [s[0]] + s[1..];
      s[1..]
    else
      var tail := s[1..];
      var rest := RemoveFirst(tail, x);
      assert s == [s[0]] + tail;
      assert x in s ==>
          x in tail && IndexOf(s, x) == IndexOf(tail, x) + 1
          && s[..IndexOf(s, x)] == [s[0]] + tail[..IndexOf(tail, x)]
          && s[IndexOf(s, x) + 1..] == tail[IndexOf(tail, x) + 1..];
      [s[0]] + rest
  }

  /** On a duplicate-free list, removing the first occurrence removes the element
      entirely and keeps the list duplicate-free. */
  lemma {:induction false} RemoveFirstNoDup<T>(s: seq<T>, x: T)
    requires NoDup(s)
    ensures NoDup(RemoveFirst(s, x))
    ensures Elems(RemoveFirst(s, x)) == Elems(s) - {x}
  {
    if x in s {
      var i := IndexOf(s, x);
      var r := RemoveFirst(s, x);
      assert |r| == |s| - 1;
      assert forall k :: 0 <= k < i ==> r[k] == s[k];
      assert forall k :: i <= k < |r| ==> r[k] == s[k + 1];
      forall y | y in r
        ensures y in s && y != x
      {
        var k :| 0 <= k < |r| && r[k] == y;
        if k >= i { assert s[k + 1] == y; }
      }
      forall y | y in s && y != x
        ensures y in r
      {
        var k :| 0 <= k < |s| && s[k] == y;
        if k < i { assert r[k] == y; } else { assert r[k - 1] == y; }
      }
    }
  }

  /** Only the first occurrence goes: an element listed twice is still listed
      after one removal. */
  lemma RemoveFirstKeepsLaterCopy<T>(s: seq<T>, x: T, i: nat, j: nat)
    requires i < j < |s| && s[i] == x && s[j] == x
    ensures x in RemoveFirst(s, x)
  {
  }

  /** Appending an element never present before keeps a list duplicate-free. */
  lemma AppendFreshNoDup<T>(s: seq<T>, x: T)
    requires NoDup(s) && x !in s
    ensures NoDup(s + [x])
  {
  }
}

=== FILE: store.dfy ===
/** The notification store: one JSON array of notification objects, read and
    rewritten in full by every operation (app.py, the second `save_notification`,
    `mark_notification_as_read`, `delete_notification`). The file is modelled by
    its decoded content: `None` when it is missing or not valid JSON, otherwise
    the sequence of records in file order. */
module NotificationStore {
  import opened Wrappers
  import opened Text
  import opened JsonValue

  /** The decoded notifications file. */
  type StoreFile = Option<seq<Record>>

  const IdKey := "id"
  const TimestampKey := "timestamp"
  const ReadKey := "is_read"

  /** The notifications a reader sees: none when the file is unreadable. */
  function Existing(file: StoreFile): seq<Record> {
    file.GetOr([])
  }

  /** The id of a notification created at `seconds` (the integer part of the
      clock reading): "ntf-" and the decimal seconds. Two notifications made in
      the same second get the same id. */
  function NotificationId(seconds: nat): (id: string)
    ensures |id| > 4 && id[..4] == "ntf-"
    ensures forall i :: 4 <= i < |id| ==> IsDigit(id[i])
    ensures ParseNat(id[4..]) == seconds
    ensures |id| > 5 ==> id[4] != '0'
  {
    var digits := NatToString(seconds);
    var id := "ntf-" + digits;
    assert id[4..] == digits;
    ParseNatToString(seconds);
    id
  }

  /** Ids are equal exactly when the seconds are. */
  lemma NotificationIdCollision(a: nat, b: nat)
    ensures NotificationId(a) == NotificationId(b) <==> a == b
  {
    if NotificationId(a) == NotificationId(b) {
      assert NotificationId(a)[4..] == NatToString(a);
      assert NotificationId(b)[4..] == NatToString(b);
      NatToStringInjective(a, b);
    }
  }

  /** The new notification: id, timestamp and `is_read = false`, then the data's
      own keys spread over them (`{..., **notification_data}`), so a key of the
      data wins over the base key of the same name. */
  function NewNotification(data: Record, seconds: nat, timestamp: string): (n: Record)
    ensures n.Keys == data.Keys + {IdKey, TimestampKey, ReadKey}
    ensures forall k :: k in data ==> n[k] == data[k]
    ensures IdKey !in data ==> n[IdKey] == JStr(NotificationId(seconds))
    ensures TimestampKey !in data ==> n[TimestampKey] == JStr(timestamp)
    ensures ReadKey !in data ==> n[ReadKey] == JBool(false)
  {
    map[IdKey := JStr(NotificationId(seconds)), TimestampKey := JStr(timestamp), ReadKey := JBool(false)] + data
  }

  /** `save_notification`: the existing notifications (none if the file is
      unreadable) with the new one appended; the file always ends up holding
      this sequence. Earlier notifications are unchanged and keep their order. */
  function SaveNotification(file: StoreFile, data: Record, seconds: nat, timestamp: string): (r: seq<Record>)
    ensures |r| == |Existing(file)| + 1
    ensures r[..|Existing(file)|] == Existing(file)
    ensures r[|r| - 1] == NewNotification(data, seconds, timestamp)
  {
    Existing(file) + [NewNotification(data, seconds, timestamp)]
  }

  /** The record's id is the given string (`note['id'] == notification_id`). */
  predicate HasId(n: Record, id: string) {
    IdKey in n && n[IdKey] == JStr(id)
  }

  /** Every record has an `id` key, so that `note['id']` does not raise. */
  predicate AllHaveIds(notes: seq<Record>) {
    forall i :: 0 <= i < |notes| ==> IdKey in notes[i]
  }

  /** Some record has the id. */
  predicate AnyHasId(notes: seq<Record>, id: string) {
    exists i :: 0 <= i < |notes| && HasId(notes[i], id)
  }

  /** The outcome of a store update: the file afterwards and the returned flag,
      which is true exactly when the file was rewritten. */
  datatype Update = Update(file: StoreFile, success: bool)

  /** The marking loop: every record with the id gets `is_read = true`; all
      others, the length and the order are unchanged. */
  function MarkMatching(notes: seq<Record>, id: string): (r: seq<Record>)
    ensures |r| == |notes|
    ensures forall i :: 0 <= i < |notes| && HasId(notes[i], id) ==> r[i] == notes[i][ReadKey := JBool(true)]
    ensures forall i :: 0 <= i < |notes| && !HasId(notes[i], id) ==> r[i] == notes[i]
  {
    if notes == [] then []
    else
      var head := if HasId(notes[0], id) then notes[0][ReadKey := JBool(true)] else notes[0];
      [head] + MarkMatching(notes[1..], id)
  }

  /** `mark_notification_as_read`. An unreadable file, or a record without an
      `id` (the loop raises `KeyError`), gives false and no write. Otherwise it
      returns true exactly when some record has the id, and then the file holds
      the records with those marked read; with no match nothing is written. */
  function MarkAsRead(file: StoreFile, id: string): (r: Update)
    ensures r.success <==> file.Some? && AllHaveIds(file.value) && AnyHasId(file.value, id)
    ensures !r.success ==> r.file == file
    ensures r.success ==> r.file == Some(MarkMatching(file.value, id))
  {
    match file
    case None => Update(file, false)
    case Some(notes) =>
      if !AllHaveIds(notes) then Update(file, false)
      else if AnyHasId(notes, id) then Update(Some(MarkMatching(notes, id)), true)
      else Update(file, false)
  }

  /** The list comprehension `[n for n in notifications if n['id'] != id]`:
      keeps, in order, exactly the records without the id. The result is
      shorter exactly when some record had the id. */
  function RemoveWithId(notes: seq<Record>, id: string): (r: seq<Record>)
    ensures |r| <= |notes|
    ensures forall i :: 0 <= i < |r| ==> !HasId(r[i], id)
    ensures forall n :: n in r ==> n in notes
    ensures forall n :: n in notes && !HasId(n, id) ==> n in r
    ensures |r| < |notes| <==> AnyHasId(notes, id)
  {
    if notes == [] then []
    else
      var rest := RemoveWithId(notes[1..], id);
      assert AnyHasId(notes, id) <==> HasId(notes[0], id) || AnyHasId(notes[1..], id) by {
        if AnyHasId(notes, id) && !HasId(notes[0], id) {
          var i :| 0 <= i < |notes| && HasId(notes[i], id);
          assert notes[1..][i - 1] == notes[i];
        }
        if AnyHasId(notes[1..], id) {
          var i :| 0 <= i < |notes[1..]| && HasId(notes[1..][i], id);
          assert notes[i + 1] == notes[1..][i];
        }
      }
      if HasId(notes[0], id) then rest else [notes[0]] + rest
  }

  /** Filtering distributes over concatenation: the filter keeps the relative
      order of the records it keeps. */
  lemma {:induction false} RemoveWithIdAppend(a: seq<Record>, b: seq<Record>, id: string)
    ensures RemoveWithId(a + b, id) == RemoveWithId(a, id) + RemoveWithId(b, id)
  {
    if a == [] {
      assert a + b == b;
    } else {
      assert (a + b)[0] == a[0];
      assert (a + b)[1..] == a[1..] + b;
      RemoveWithIdAppend(a[1..], b, id);
    }
  }

  /** Filtering twice is filtering once. */
  lemma {:induction false} RemoveWithIdIdempotent(notes: seq<Record>, id: string)
    ensures RemoveWithId(RemoveWithId(notes, id), id) == RemoveWithId(notes, id)
  {
    var r := RemoveWithId(notes, id);
    assert !AnyHasId(r, id);
    RemoveWithIdNoMatch(r, id);
  }

  /** Without a matching record the filter changes nothing. */
  lemma {:induction false} RemoveWithIdNoMatch(notes: seq<Record>, id: string)
    requires !AnyHasId(notes, id)
    ensures RemoveWithId(notes, id) == notes
  {
    if notes != [] {
      assert !HasId(notes[0], id);
      assert !AnyHasId(notes[1..], id) by {
        forall i | 0 <= i < |notes[1..]| ensures !HasId(notes[1..][i], id) {
          assert notes[1..][i] == notes[i + 1];
        }
      }
      RemoveWithIdNoMatch(notes[1..], id);
      assert notes == [notes[0]] + notes[1..];
    }
  }

  /** `delete_notification`. An unreadable file, or a record without an `id`,
      gives false and no write. Otherwise the filtered records are written back
      and true is returned exactly when the list shrank, that is when some record
      had the id; deleting an absent id writes nothing. */
  function DeleteNotification(file: StoreFile, id: string): (r: Update)
    ensures r.success <==> file.Some? && AllHaveIds(file.value) && AnyHasId(file.value, id)
    ensures !r.success ==> r.file == file
    ensures r.success ==> r.file == Some(RemoveWithId(file.value, id))
  {
    match file
    case None => Update(file, false)
    case Some(notes) =>
      if !AllHaveIds(notes) then Update(file, false)
      else
        var kept := RemoveWithId(notes, id);
        if |kept| < |notes| then Update(Some(kept), true) else Update(file, false)
  }

  /** After a delete, listing the notifications never shows the id: either it was
      removed, or the file was left alone because no record had it (or the
      delete could not run, in which case the file was left alone too). */
  lemma DeleteThenListHasNoId(file: StoreFile, id: string)
    requires file.Some? ==> AllHaveIds(file.value)
    ensures forall n :: n in Existing(DeleteNotification(file, id).file) ==> !HasId(n, id)
  {
  }

  /** Marking twice is marking once. */
  lemma MarkMatchingIdempotent(notes: seq<Record>, id: string)
    ensures MarkMatching(MarkMatching(notes, id), id) == MarkMatching(notes, id)
  {
    var once := MarkMatching(notes, id);
    var twice := MarkMatching(once, id);
    forall i | 0 <= i < |notes| ensures twice[i] == once[i] {
      if HasId(notes[i], id) {
        assert HasId(once[i], id);
      }
    }
  }

  /** Marking an id no record has returns false and leaves the store as it was. */
  lemma MarkAbsentChangesNothing(notes: seq<Record>, id: string)
    requires forall i :: 0 <= i < |notes| ==> !HasId(notes[i], id)
    ensures MarkAsRead(Some(notes), id) == Update(Some(notes), false)
  {
  }

  /** Marking keeps every record's id, so a marked store can still be marked and
      deleted from. */
  lemma MarkKeepsIds(notes: seq<Record>, id: string)
    requires AllHaveIds(notes)
    ensures AllHaveIds(MarkMatching(notes, id))
    ensures forall i :: 0 <= i < |notes| ==> MarkMatching(notes, id)[i][IdKey] == notes[i][IdKey]
  {
  }
}

=== FILE: text.dfy ===
/** Python `str` operations the core relies on, over `string` (a sequence of
    Unicode scalar values, as Python's `str` is a sequence of code points). */
module Text {

  /** `sub` starts `s`. */
  predicate IsPrefix(sub: string, s: string) {
    |sub| <= |s| && s[..|sub|] == sub
  }

  /** Python's `sub in s`: substring search, recursively from the left.
      The empty string occurs in every string. */
  predicate Contains(s: string, sub: string): (b: bool)
    ensures b ==> |sub| <= |s|
    ensures |sub| == 0 ==> b
    decreases |s|
  {
    IsPrefix(sub, s) || (|s| > 0 && Contains(s[1..], sub))
  }

  /** `sub` sits in `s` at index `i`. */
  predicate OccursAt(s: string, sub: string, i: int) {
    0 <= i && i + |sub| <= |s| && s[i..i + |sub|] == sub
  }

  /** The search agrees with the index-based reading of substring containment. */
  lemma {:induction false} ContainsIffOccurs(s: string, sub: string)
    ensures Contains(s, sub) <==> exists i :: OccursAt(s, sub, i)
    decreases |s|
  {
    if Contains(s, sub) {
      if IsPrefix(sub, s) {
        assert OccursAt(s, sub, 0);
      } else {
        ContainsIffOccurs(s[1..], sub);
        var i :| OccursAt(s[1..], sub, i);
        assert s[1..][i..i + |sub|] == s[i + 1..i + 1 + |sub|];
        assert OccursAt(s, sub, i + 1);
      }
    }
    forall i | OccursAt(s, sub, i)
      ensures Contains(s, sub)
    {
      if i == 0 {
        assert IsPrefix(sub, s);
      } else {
        assert s[1..][i - 1..i - 1 + |sub|] == s[i..i + |sub|];
        assert OccursAt(s[1..], sub, i - 1);
        ContainsIffOccurs(s[1..], sub);
      }
    }
  }

  /** A one-character string occurs exactly when the character does. */
  lemma ContainsChar(s: string, c: char)
    ensures Contains(s, [c]) <==> c in s
  {
    ContainsIffOccurs(s, [c]);
    if c in s {
      var i :| 0 <= i < |s| && s[i] == c;
      assert s[i..i + 1] == [c];
      assert OccursAt(s, [c], i);
    }
    if exists i :: OccursAt(s, [c], i) {
      var i :| OccursAt(s, [c], i);
      assert s[i..i + 1][0] == s[i];
    }
  }

  /** Python's `str.isspace` for one character: the characters `str.strip()`
      removes when called without arguments. */
  predicate IsSpace(c: char) {
    || ('\t' <= c <= '\r')
    || ('\U{1C}' <= c <= '\U{20}')
    || c == '\U{85}' || c == '\U{A0}' || c == '\U{1680}'
    || ('\U{2000}' <= c <= '\U{200A}')
    || c == '\U{2028}' || c == '\U{2029}' || c == '\U{202F}'
    || c == '\U{205F}' || c == '\U{3000}'
  }

  /** Number of whitespace characters at the front of `s`. */
  function LeadingSpaces(s: string): (n: nat)
    ensures n <= |s|
    ensures forall i :: 0 <= i < n ==> IsSpace(s[i])
    ensures n < |s| ==> !IsSpace(s[n])
  {
    if |s| > 0 && IsSpace(s[0]) then 1 + LeadingSpaces(s[1..]) else 0
  }

  /** Length of `s` once its trailing whitespace is cut off. */
  function TrailingStart(s: string): (n: nat)
    ensures n <= |s|
    ensures forall i :: n <= i < |s| ==> IsSpace(s[i])
    ensures n > 0 ==> !IsSpace(s[n - 1])
  {
    if |s| > 0 && IsSpace(s[|s| - 1]) then TrailingStart(s[..|s| - 1]) else |s|
  }

  /** `r` is the piece `s[a..b]` of `s`, and everything before `a` and from `b`
      on is whitespace. */
  predicate TrimmedTo(s: string, r: string, a: int, b: int) {
    && 0 <= a <= b <= |s|
    && r == s[a..b]
    && (forall i :: 0 <= i < a ==> IsSpace(s[i]))
    && (forall i :: b <= i < |s| ==> IsSpace(s[i]))
  }

  /** Python's `s.strip()`: whitespace removed from both ends. The result is a
      contiguous piece of `s` with only whitespace cut off before and after it,
      and it has no whitespace at either end; so every other character is
      present in `s` exactly when it is present in the result. */
  function Strip(s: string): (r: string)
    ensures exists a, b :: TrimmedTo(s, r, a, b)
    ensures |r| > 0 ==> !IsSpace(r[0]) && !IsSpace(r[|r| - 1])
    ensures forall c :: !IsSpace(c) ==> (c in r <==> c in s)
  {
    var a := LeadingSpaces(s);
    var b := a + TrailingStart(s[a..]);
    StripCut(s, a, b);
    TrimmedKeepsNonSpace(s, s[a..b], a, b);
    s[a..b]
  }

  /** The cut `Strip` makes: leading whitespace up to `a`, trailing whitespace
      from `b`, and non-whitespace at both ends of what is kept. */
  lemma StripCut(s: string, a: nat, b: int)
    requires a == LeadingSpaces(s)
    requires b == a + TrailingStart(s[a..])
    ensures TrimmedTo(s, s[a..b], a, b)
    ensures a < b ==> !IsSpace(s[a..b][0]) && !IsSpace(s[a..b][b - a - 1])
  {
    var t := s[a..];
    forall i | b <= i < |s|
      ensures IsSpace(s[i])
    {
      assert s[i] == t[i - a];
    }
    if a < b {
      assert s[a..b][b - a - 1] == t[b - a - 1];
    }
  }

  /** Cutting only whitespace off both ends keeps every other character. */
  lemma TrimmedKeepsNonSpace(s: string, r: string, a: int, b: int)
    requires TrimmedTo(s, r, a, b)
    ensures forall c :: !IsSpace(c) ==> (c in r <==> c in s)
  {
    assert forall i :: 0 <= i < |r| ==> r[i] == s[a + i];
    assert forall i :: 0 <= i < |s| && !IsSpace(s[i]) ==> a <= i < b && r[i - a] == s[i];
  }

  /** ASCII lower-casing, one character. */
  function LowerChar(c: char): (r: char)
    ensures 'A' <= c <= 'Z' ==> 'a' <= r <= 'z'
  {
    if 'A' <= c <= 'Z' then (c as int + 32) as char else c
  }

  /** Python's `s.lower()`, restricted to ASCII letters. Every other character is
      left as it is; the only use in the model compares the result with ASCII
      words and with a CJK character, which no other character lowers to. */
  function Lower(s: string): (r: string)
    ensures |r| == |s|
    ensures forall i :: 0 <= i < |s| ==> r[i] == LowerChar(s[i])
  {
    if |s| == 0 then "" else [LowerChar(s[0])] + Lower(s[1..])
  }

  /** Python's slice `s[:n]` for a non-negative `n`. */
  function Take(s: string, n: nat): (r: string)
    ensures |r| == if |s| <= n then |s| else n
    ensures IsPrefix(r, s)
  {
    if |s| <= n then s else s[..n]
  }

  /** A decimal digit character. */
  predicate IsDigit(c: char) {
    '0' <= c <= '9'
  }

  /** The character of decimal digit `d`. */
  function DigitChar(d: nat): (c: char)
    requires d < 10
    ensures IsDigit(c) && c as int - '0' as int == d
  {
    ('0' as int + d) as char
  }

  /** Python's `str(n)` for a non-negative integer: decimal digits, no leading zero. */
  function NatToString(n: nat): (s: string)
    ensures |s| >= 1
    ensures forall i :: 0 <= i < |s| ==> IsDigit(s[i])
    ensures |s| > 1 ==> s[0] != '0'
  {
    if n < 10 then [DigitChar(n)] else NatToString(n / 10) + [DigitChar(n % 10)]
  }

  /** Python's `int(s)` on a string of decimal digits. */
  function ParseNat(s: string): nat
    requires forall i :: 0 <= i < |s| ==> IsDigit(s[i])
  {
    if |s| == 0 then 0
    else
      assert IsDigit(s[|s| - 1]);
      ParseNat(s[..|s| - 1]) * 10 + (s[|s| - 1] as int - '0' as int)
  }

  /** Reading back a rendered number gives the number. */
  lemma {:induction false} ParseNatToString(n: nat)
    ensures ParseNat(NatToString(n)) == n
  {
    if n >= 10 {
      var s := NatToString(n);
      assert s[..|s| - 1] == NatToString(n / 10);
      ParseNatToString(n / 10);
    }
  }

  /** Distinct numbers render as distinct strings. */
  lemma NatToStringInjective(a: nat, b: nat)
    ensures NatToString(a) == NatToString(b) <==> a == b
  {
    ParseNatToString(a);
    ParseNatToString(b);
  }
}

=== FILE: wrappers.dfy ===
/** An optional value, used wherever a step of the model may produce nothing:
    a file that could not be read, a reply that did not decode, a missing span. */
module Wrappers {

  datatype Option<+T> = None | Some(value: T) {

    /** The carried value, or `default` when there is none. */
    function GetOr(default: T): T {
      match this
      case Some(v) => v
      case None => default
    }
  }
}
